=== FILE: README.md ===
# SwitchBot Cloud integration — decision logic

This project models the decision logic of the SwitchBot Cloud integration for Home Assistant, written as pure Dafny functions over immutable records, and proves what each piece promises:

- **Curtain adapter** (`custom_components/switchbot_cloud/cover.py`) covers several pieces:
  - which listed devices become curtain entities;
  - how the vendor's `slide_position` becomes the host position (100 minus the nearest multiple of five) and the closed state (position at most 20);
  - the `set_position` commands sent for open, close and set-position;
  - the optimistic opening/closing flags, which each coordinator snapshot ANDs with the device's `moving` field.
- **Refresh cycle** (`async_update_data` in `custom_components/switchbot_cloud/__init__.py`) lists the devices and keeps the cloud-enabled ones. It fetches each one's status in list order and builds an id-keyed map. Failures are all-or-nothing: a rejected token (`RuntimeError`) becomes an auth failure, and a transport failure (`IOError`) becomes `UpdateFailed` with a fixed message prefix. The same file's set-up and unload bookkeeping of the shared data dictionary is modelled too.
- **Credential step** (`custom_components/switchbot_cloud/config_flow.py`) maps one device-listing outcome, plus the already-configured check, to one of three results: the form with an error code, an abort, or a new config entry.

The vendor client is replaced by outcome values: `Ok(v)`, `Err(AuthError)`, `Err(IoError(message))`, or `Err(OtherError)` for any other exception. The status calls of one cycle are a script, `replies`: the i-th call of the cycle gets `replies[i]`. Writes to the host and commands sent to a device are returned as an ordered list of effects.

Files: `wrappers.dfy` (Option), `devices.dfy` (records and outcomes), `decimal.dfy` (integer text as an f-string writes it, and its parser), `position.dfy`, `curtain.dfy`, `refresh.dfy`, `lifecycle.dfy`, `config_flow.dfy`.

## Model

| member | source | states |
|---|---|---|
| Position.CurrentPosition | custom_components/switchbot_cloud/cover.py:87-91 | the position is None exactly when `slide_position` is absent; otherwise 100 minus it is a multiple of five within 2 of the raw value |
| Position.PositionCharacterized | custom_components/switchbot_cloud/cover.py:87-91 | both directions: the position is p exactly when the raw value is present, 100-p is a multiple of five, and it is within 2 of the raw value, so the nearest multiple is unique |
| Position.RoundFifthIsShiftedFloor | custom_components/switchbot_cloud/cover.py:90 | `Position.RoundHalfEven(raw, 5)`, exact half-to-even rounding of raw/5 (Python's `round`, without float error), equals floor((raw+2)/5) for every integer, because raw/5 never lands on a half |
| Position.PositionInRange | custom_components/switchbot_cloud/cover.py:90 | for raw in 0..100 the position is a multiple of five in 0..100 and within 2 of 100-raw |
| Position.PositionExamples | custom_components/switchbot_cloud/cover.py:90 | raw 0 gives 100, raw 100 gives 0, and 42, 47 and 48 give 60, 55 and 50 |
| Position.PositionNonIncreasing | custom_components/switchbot_cloud/cover.py:90 | a larger raw value never gives a larger position |
| Position.IsClosed | custom_components/switchbot_cloud/cover.py:93-97 | `is_closed` is None exactly when the position is None, and otherwise true exactly when the position is at most 20 |
| Position.ClosedIffRawAtLeast78 | custom_components/switchbot_cloud/cover.py:93-97 | for a present raw value, the curtain is closed exactly when the raw value is at least 78 |
| Curtain.SetupCurtains | custom_components/switchbot_cloud/cover.py:44-53 | a fresh entity, with both flags unset, exists for a device exactly when `Curtain.Selected` holds of it: a calibrated "Curtain" that is ungrouped or its group's master; no other entities exist |
| Curtain.SetupCurtainsCounts | custom_components/switchbot_cloud/cover.py:44-53 | each selected device gets exactly as many entities as the coordinator's values hold it (one per value), and no other device gets one |
| Curtain.SetupCurtainsAppend | custom_components/switchbot_cloud/cover.py:44-53 | entities follow the order of the coordinator's values: setting up a concatenation gives the concatenated set-ups |
| Curtain.SetupEntitiesKeyedBySnapshot | custom_components/switchbot_cloud/cover.py:44-53 | when the values come from an id-keyed snapshot, each entity's `unique_id` (its device's id) is a key of the snapshot holding that very device |
| Curtain.SetPositionCommand | custom_components/switchbot_cloud/cover.py:103-105 | `_set_position(x)` sends `set_position` with a parameter "0,ff," followed by canonical decimal text (`Decimal.Canonical`: no leading zero, never "-0") that parses back to 100-x; with `Decimal.CanonicalIsIntToString` this is exactly the f-string's text of 100-x |
| Curtain.OpenCover | custom_components/switchbot_cloud/cover.py:107-112 | opening raises the opening flag and keeps the closing flag. It publishes the state first, then sends "0,ff,0" to the entity's device |
| Curtain.CloseCover | custom_components/switchbot_cloud/cover.py:114-119 | closing raises the closing flag and keeps the opening flag. It publishes the state first, then sends "0,ff,100" |
| Curtain.SetCoverPositionAsWritten | custom_components/switchbot_cloud/cover.py:121-125 | as written, set-position to p sends "0,ff,{p}". The two complements cancel, and the entity state is unchanged |
| Curtain.SetCoverPositionAsWrittenInverts | custom_components/switchbot_cloud/cover.py:107-125 | as written, set-position to 100 sends the very command close sends, and that vendor value reads back as position 0 |
| Curtain.SetCoverPosition | custom_components/switchbot_cloud/cover.py:121-125 | corrected: the vendor is asked for 100-p, the complement that open and close use, and the entity state is unchanged |
| Curtain.SetCoverPositionRoundTrip | custom_components/switchbot_cloud/cover.py:121-125 | corrected: a vendor value reached on request reads back within 2 of p, and exactly p for steps of five |
| Curtain.PyAnd | custom_components/switchbot_cloud/cover.py:134-135 | Python `flag and moving` is truthy exactly when both are. A truthy flag yields `moving` itself, and a falsy flag is returned unchanged |
| Curtain.HandleUpdate | custom_components/switchbot_cloud/cover.py:127-137 | an update replaces the device with the one stored under the entity's unique id. Each flag becomes exactly Python's `flag and moving`. It is truthy exactly when it was truthy and the device is moving, and untouched while moving. The state is then published |
| Curtain.UpdateNeverRaisesFlags | custom_components/switchbot_cloud/cover.py:133-135 | an update never turns a flag on, and a stopped device clears both flags |
| Curtain.OpenThenUpdate | custom_components/switchbot_cloud/cover.py:107-137 | after an open, the next update leaves the entity opening exactly when the device reports moving |
| Curtain.UpdateKeepsUniqueId | custom_components/switchbot_cloud/cover.py:128-133 | with an id-keyed snapshot, an update keeps the entity's unique id |
| Decimal.ParseIntToString | custom_components/switchbot_cloud/cover.py:105 | the decimal text that `Decimal.IntToString` writes, as the parameter f-string does, parses back to the same integer |
| Decimal.CanonicalIsIntToString | custom_components/switchbot_cloud/cover.py:105 | a canonical text is fixed by its value: it equals the text Python's f-string writes for the integer it parses to, so no other spelling ("0100", "-0") can stand for the same number |
| Decimal.IntToStringInjective | custom_components/switchbot_cloud/cover.py:105 | different targets give different parameters |
| Refresh.Classify | custom_components/switchbot_cloud/__init__.py:38-42 | a rejected token becomes an auth failure. A transport failure becomes `UpdateFailed` whose message is the fixed prefix followed by the error text. Neither yields a map |
| Refresh.CloudEnabled | custom_components/switchbot_cloud/__init__.py:32 | the retained devices are exactly the listed devices with `cloud_enabled` set |
| Refresh.CloudEnabledCounts | custom_components/switchbot_cloud/__init__.py:32 | the filter keeps each cloud-enabled device exactly as many times as the listing holds it, and no other device |
| Refresh.CloudEnabledAppend | custom_components/switchbot_cloud/__init__.py:32 | the filter keeps listing order: filtering a concatenation gives the concatenation of the filtered parts |
| Refresh.FetchStatuses | custom_components/switchbot_cloud/__init__.py:33-36 | the status loop succeeds exactly when every reply it needs is Ok, and then pairs the i-th device with the i-th reply. Otherwise it stops at the first failing call and returns that call's error |
| Refresh.FetchStopsAtFirstFailure | custom_components/switchbot_cloud/__init__.py:33-36 | the status loop fails exactly when some needed reply fails. It then made exactly as many calls as it takes to reach the first failing reply, and ends with that reply's error |
| Refresh.Keyed | custom_components/switchbot_cloud/__init__.py:37 | the map's keys are exactly the devices' ids, and each key maps to one of the devices carrying that id |
| Refresh.KeyedLaterWins | custom_components/switchbot_cloud/__init__.py:37 | with duplicate ids, the last device carrying an id is the one stored under it |
| Refresh.UpdateData | custom_components/switchbot_cloud/__init__.py:29-42 | a failed listing is classified with no status call. A map is produced exactly when the listing and every status reply succeed. Status calls go only to listed cloud-enabled devices |
| Refresh.SnapshotKeysAreCloudDevices | custom_components/switchbot_cloud/__init__.py:32-37 | a successful map's keys are exactly the ids of the cloud-enabled listed devices, each key holding a cloud-enabled listed device with that id |
| Refresh.SnapshotStatusesFromThisCycle | custom_components/switchbot_cloud/__init__.py:33-37 | every device in a successful map carries the reply to this cycle's last status call for its id |
| Refresh.StatusCallsInListOrder | custom_components/switchbot_cloud/__init__.py:32-36 | status calls follow listing order over the cloud-enabled devices. They stop at the first failure, and a successful cycle called every retained device |
| Refresh.FailureClassifiedByFirstError | custom_components/switchbot_cloud/__init__.py:30-42 | when the listing succeeded, the cycle's result is the classification of the first failing reply, or a map when there is none |
| Refresh.OneFailureFailsTheCycle | custom_components/switchbot_cloud/__init__.py:33-42 | one failing status reply means no map is published |
| Lifecycle.SetupEntry | custom_components/switchbot_cloud/__init__.py:23-57 | the domain dictionary is created if absent (`Lifecycle.DomainOf`, the `setdefault`). Set-up reuses a stored coordinator and otherwise stores one with the entry's token and a 30-second interval. The entry is recorded only after a successful first refresh, and the entry keys grow by exactly that entry. A failed refresh leaves the entries as they were. Other entries and other domains are untouched |
| Lifecycle.UnloadEntry | custom_components/switchbot_cloud/__init__.py:64-73 | a failed platform unload changes nothing. A successful one removes only the entry's record, and removes the whole domain exactly when no config entries remain. The shared coordinator and other domains are kept |
| Lifecycle.SetupThenUnloadRestores | custom_components/switchbot_cloud/__init__.py:23-73 | setting up the only entry and unloading it with no entries left restores the data |
| Lifecycle.SecondEntryReusesCoordinator | custom_components/switchbot_cloud/__init__.py:45-52 | a second entry's set-up gets the first entry's coordinator, which polls with the first entry's token |
| Lifecycle.FailedSetupKeepsCoordinator | custom_components/switchbot_cloud/__init__.py:45-57 | a failed first refresh leaves the new coordinator stored and no entry recorded |
| ConfigFlow.ValidateInput | custom_components/switchbot_cloud/config_flow.py:29-45 | success returns the title "SwitchBot Cloud". A rejected token is InvalidAuth, a transport failure is CannotConnect, and any other exception passes through. Each holds in both directions |
| ConfigFlow.StepUser | custom_components/switchbot_cloud/config_flow.py:53-82 | with no input, the step shows the form with no errors and does not validate. A configured token aborts before validation. Otherwise it validates and creates an entry exactly when the listing succeeds, with the returned title, the input as data and the API token as the entry's unique id. A failure re-shows the form with exactly one error, under "base" |
| ConfigFlow.ErrorTable | custom_components/switchbot_cloud/config_flow.py:68-82 | through `ConfigFlow.ErrorCode`, a rejected token shows "invalid_auth", a transport failure "cannot_connect", and anything else "unknown". The codes are distinct |
| ConfigFlow.SameTokenAbortsOnceCreated | custom_components/switchbot_cloud/config_flow.py:64-66 | once a step has created an entry, a later flow given the same token, with that entry's unique id among the configured ones, aborts as already configured without validating |
| ConfigFlow.ErrorsOnlyAfterFailedValidation | custom_components/switchbot_cloud/config_flow.py:57-82 | an error is shown only after a failed validation, and a configured token is never validated |

## Findings

| source | as written | input that shows it | evidently intended | confidence | as-written member | corrected member |
|---|---|---|---|---|---|---|
| custom_components/switchbot_cloud/cover.py:121-125 | `async_set_cover_position(p)` calls `_set_position(100 - p)`, which sends `100 - (100 - p)`, so the vendor is asked for p | p = 100 (fully open) sends "0,ff,100", the command `async_close_cover` sends; the position derivation reads that vendor value back as 0 | ask the vendor for 100 - p, the polarity that open (sends 0) and close (send 100) and the position derivation all use | medium, not executed | Curtain.SetCoverPositionAsWritten, Curtain.SetCoverPositionAsWrittenInverts | Curtain.SetCoverPosition, Curtain.SetCoverPositionRoundTrip |

The code does not clamp the derived position to 0..100: raw 103 gives -5, and the model does the same. Raw 47 gives 55, which `Position.PositionExamples` states.

## Left out

- Scheduling, single-flight de-duplication, listener fan-out and the first-refresh exception mapping of the host's `DataUpdateCoordinator` are left out: that code is in the host library, which is not part of this model. So are the terminal auth-failure state and the retention of the previous snapshot. `coordinator.py` only stores an `api` field, and `Lifecycle.Coordinator` records the token in its place.
- `async_add_executor_job`, `RestoreEntity`, `device_info`, `name`, `async_setup_platforms`/`async_unload_platforms`, and logging are host lifecycle and I/O. `async_write_ha_state` appears only as a `WriteState` effect.
- The `device.client` patch in `__init__.py` (line 35) is left out. It works around a vendor library bug and has no observable logic.
- The vendor client and HTTP are left out. Each call is an outcome value.
- The outcome of a sent command is not modelled. The flag is raised before the command, so a failed command leaves it raised, and the error goes to the caller.
- Refresh.UpdateData: the reply script must hold a reply for every status call the cycle can make. This is a limit of the gateway model, not a demand of the source.
- Curtain.HandleUpdate: a missing unique id in the snapshot, or a missing "moving" key, would raise `KeyError`. The model makes their presence a precondition.
- Lifecycle.UnloadEntry: popping an entry that is not recorded would raise `KeyError`. The model makes its presence a precondition. The host's count of configured entries is a parameter.
- Lifecycle.SetupEntry: the domain dictionary is a record with the shared coordinator and the per-entry records kept apart, which assumes no entry id equals "coordinator". The first refresh's result is a parameter.
- Position.CurrentPosition: the raw value is an integer, and `raw / 5` is rounded exactly. Python's float division agrees with this only for |raw| < 5·2^50, a range that covers the vendor's 0..100. Beyond it, the float quotient can itself round onto a half (raw = 5·2^50 + 7 gives …625.5, then `round` gives …626, where the exact result is …625). A status whose `slide_position` is not an integer is not modelled.
- ConfigFlow.StepUser: the host's abort for a flow already in progress with the same unique id is left out, because it lives in the host. The voluptuous schema and form rendering are left out. A form shown without errors (`errors=None`) is an empty map.
- `const.py` holds only constants, which are inlined. `TYPE_BOT` is unused by the modelled code.

=== FILE: config_flow.dfy ===
/**
 * The credential step of the configuration flow (config_flow.py): one
 * device listing decides whether the API token is accepted, and the outcome
 * is mapped to the form, an abort, or a new config entry.
 */
module ConfigFlow {
  import opened Wrappers
  import opened Devices

  const CONF_API_TOKEN := "api_token"
  const ENTRY_TITLE := "SwitchBot Cloud"
  const ALREADY_CONFIGURED := "already_configured"

  /** The exceptions `validate_input` can end with. */
  datatype ValidationError = CannotConnect | InvalidAuth | Unexpected

  /** `validate_input`'s result: the entry information or the exception. */
  datatype Validation = Validated(title: string) | Raised(error: ValidationError)

  /** What a flow step shows the user. An empty `errors` map stands for a
      form shown without errors; a created entry carries the unique id the
      flow set before creating it. */
  datatype FlowResult =
    | ShowForm(errors: map<string, string>)
    | Abort(reason: string)
    | CreateEntry(title: string, data: map<string, string>, uniqueId: string)

  /** A flow step's result and whether it called the gateway to validate. */
  datatype FlowStep = FlowStep(result: FlowResult, validated: bool)

  /** `validate_input`: the listing outcome decides. A rejected token
      (`RuntimeError`) is InvalidAuth, a transport failure (`IOError`) is
      CannotConnect, and any other exception passes through unchanged. */
  function ValidateInput(listing: Outcome<seq<DeviceInfo>>): (r: Validation)
    ensures r == Validated(ENTRY_TITLE) <==> listing.Ok?
    ensures r == Raised(InvalidAuth) <==> listing == Err(AuthError)
    ensures r == Raised(CannotConnect) <==> listing.Err? && listing.error.IoError?
    ensures r == Raised(Unexpected) <==> listing == Err(OtherError)
  {
    match listing
    case Ok(_) => Validated(ENTRY_TITLE)
    case Err(AuthError) => Raised(InvalidAuth)
    case Err(IoError(_)) => Raised(CannotConnect)
    case Err(OtherError) => Raised(Unexpected)
  }

  /** The error code each exception is shown with. */
  function ErrorCode(e: ValidationError): string
  {
    match e
    case CannotConnect => "cannot_connect"
    case InvalidAuth => "invalid_auth"
    case Unexpected => "unknown"
  }

  /** `async_step_user`. `configured` holds the unique ids of the entries
      already configured for the domain; `listing` is what the validating
      device listing returns if it is made. */
  function StepUser(userInput: Option<map<string, string>>, configured: set<string>,
                    listing: Outcome<seq<DeviceInfo>>): (r: FlowStep)
    requires userInput.Some? ==> CONF_API_TOKEN in userInput.value
    ensures userInput.None? ==> r == FlowStep(ShowForm(map[]), false)
    ensures userInput.Some? && userInput.value[CONF_API_TOKEN] in configured ==>
      r == FlowStep(Abort(ALREADY_CONFIGURED), false)
    ensures r.validated <==> userInput.Some? && userInput.value[CONF_API_TOKEN] !in configured
    ensures r.result.CreateEntry? <==> r.validated && listing.Ok?
    ensures r.result.CreateEntry? ==> r.result.title == ENTRY_TITLE && r.result.data == userInput.value
    ensures r.result.CreateEntry? ==> r.result.uniqueId == userInput.value[CONF_API_TOKEN]
    ensures r.validated && listing.Err? ==>
      r.result.ShowForm? && r.result.errors.Keys == {"base"}
  {
    match userInput
    case None => FlowStep(ShowForm(map[]), false)
    case Some(input) =>
      if input[CONF_API_TOKEN] in configured then FlowStep(Abort(ALREADY_CONFIGURED), false)
      else
        match ValidateInput(listing)
        case Validated(title) => FlowStep(CreateEntry(title, input, input[CONF_API_TOKEN]), true)
        case Raised(e) => FlowStep(ShowForm(map["base" := ErrorCode(e)]), true)
  }

  /** The error shown for each failed listing: a rejected token shows
      "invalid_auth", a transport failure "cannot_connect", anything else
      "unknown"; the three codes are distinct. */
  lemma ErrorTable(input: map<string, string>, configured: set<string>, listing: Outcome<seq<DeviceInfo>>)
    requires CONF_API_TOKEN in input && input[CONF_API_TOKEN] !in configured
    requires listing.Err?
    ensures var r := StepUser(Some(input), configured, listing).result;
      && (listing.error == AuthError ==> r == ShowForm(map["base" := "invalid_auth"]))
      && (listing.error.IoError? ==> r == ShowForm(map["base" := "cannot_connect"]))
      && (listing.error == OtherError ==> r == ShowForm(map["base" := "unknown"]))
    ensures forall a, b :: ErrorCode(a) == ErrorCode(b) ==> a == b
  {
  }

  /** The form is re-shown with an error only after a validation that failed,
      and a configured token is never validated again. */
  lemma ErrorsOnlyAfterFailedValidation(userInput: Option<map<string, string>>, configured: set<string>,
                                        listing: Outcome<seq<DeviceInfo>>)
    requires userInput.Some? ==> CONF_API_TOKEN in userInput.value
    ensures var s := StepUser(userInput, configured, listing);
      && (s.result.ShowForm? && |s.result.errors| > 0 ==> s.validated && listing.Err?)
      && (userInput.Some? && userInput.value[CONF_API_TOKEN] in configured ==> !s.validated)
  {
  }

  /** The token is the entry's unique id: once a step has created an entry,
      a later flow given the same token aborts without validating, whatever
      its listing would return. */
  lemma SameTokenAbortsOnceCreated(input: map<string, string>, configured: set<string>,
                                   listing: Outcome<seq<DeviceInfo>>, later: Outcome<seq<DeviceInfo>>)
    requires CONF_API_TOKEN in input
    ensures var first := StepUser(Some(input), configured, listing).result;
      first.CreateEntry? ==>
        StepUser(Some(input), configured + {first.uniqueId}, later) == FlowStep(Abort(ALREADY_CONFIGURED), false)
  {
  }
}

=== FILE: curtain.dfy ===
/**
 * The curtain entity adapter (cover.py): which devices become curtain
 * entities, the commands the entity sends, and the optimistic
 * opening/closing flags reconciled with each coordinator snapshot.
 */
module Curtain {
  import opened Wrappers
  import opened Devices
  import Decimal
  import Position

  const CURTAIN_TYPE := "Curtain"
  const SET_POSITION := "set_position"
  const PARAMETER_PREFIX := "0,ff,"

  /** The entity filter of `async_setup_entry`: a calibrated curtain that is
      ungrouped or the master of its group. */
  predicate Selected(info: DeviceInfo)
  {
    info.deviceType == CURTAIN_TYPE && info.calibrated && (!info.grouped || info.master)
  }

  /** One curtain entity: the device it last saw and its optimistic flags.
      The flags start as None, the host's default for `_attr_is_opening` and
      `_attr_is_closing`. */
  datatype Curtain = Curtain(device: Device, opening: Option<bool>, closing: Option<bool>) {
    /** `unique_id`: the id of the device the entity currently holds. */
    function UniqueId(): string
    {
      device.info.id
    }
  }

  function NewCurtain(d: Device): Curtain
  {
    Curtain(d, None, None)
  }

  /** Python truthiness of an optional flag. */
  predicate Truthy(flag: Option<bool>)
  {
    flag == Some(true)
  }

  /** Python's `flag and b`: the flag itself when it is falsy, else b. */
  function PyAnd(flag: Option<bool>, b: bool): (r: Option<bool>)
    ensures Truthy(r) <==> Truthy(flag) && b
    ensures Truthy(flag) ==> r == Some(b)
    ensures b ==> r == flag
    ensures !Truthy(flag) ==> r == flag
  {
    if Truthy(flag) then Some(b) else flag
  }

  /** What an entity operation makes visible: a state write to the host, or
      a command sent to a device. */
  datatype Effect =
    | WriteState(opening: Option<bool>, closing: Option<bool>)
    | Send(deviceId: string, command: Command)

  /** The entity after an operation, and the effects in the order issued. */
  datatype Step = Step(state: Curtain, effects: seq<Effect>)

  /** `async_setup_entry`: one fresh entity per selected device, in the order
      of the coordinator's values. */
  function SetupCurtains(values: seq<Device>): (r: seq<Curtain>)
    ensures |r| <= |values|
    ensures forall c :: c in r ==> c == NewCurtain(c.device)
    ensures forall d :: NewCurtain(d) in r <==> d in values && Selected(d.info)
  {
    if |values| == 0 then []
    else
      var rest := SetupCurtains(values[1..]);
      assert forall d :: d in values <==> d == values[0] || d in values[1..];
      if Selected(values[0].info) then [NewCurtain(values[0])] + rest else rest
  }

  /** One entity per selected value: each selected device gets exactly as
      many entities as the values hold it, and no other device gets one. */
  lemma {:induction false} SetupCurtainsCounts(values: seq<Device>)
    ensures forall d :: (multiset(SetupCurtains(values))[NewCurtain(d)] ==
      if Selected(d.info) then multiset(values)[d] else 0)
  {
    if |values| > 0 {
      SetupCurtainsCounts(values[1..]);
      assert values == [values[0]] + values[1..];
    }
  }

  /** Entities keep the order of the values: setting up a concatenation is
      the concatenation of the set-ups of its parts. */
  lemma {:induction false} SetupCurtainsAppend(a: seq<Device>, b: seq<Device>)
    ensures SetupCurtains(a + b) == SetupCurtains(a) + SetupCurtains(b)
    decreases |a|
  {
    if |a| == 0 {
      assert a + b == b;
    } else {
      assert (a + b)[0] == a[0];
      assert (a + b)[1..] == a[1..] + b;
      SetupCurtainsAppend(a[1..], b);
    }
  }

  /** When every value is the snapshot's entry under its own id, every entity
      can find its device in that snapshot under its unique id. */
  lemma SetupEntitiesKeyedBySnapshot(data: map<string, Device>, values: seq<Device>)
    requires forall v :: v in values ==> v.info.id in data && data[v.info.id] == v
    ensures forall c :: c in SetupCurtains(values) ==> c.UniqueId() in data && data[c.UniqueId()] == c.device
  {
  }

  /** `_set_position(x)`: the `set_position` command whose parameter is
      "0,ff," followed by the decimal text of 100 - x. */
  function SetPositionCommand(x: int): (c: Command)
    ensures c.name == SET_POSITION
    ensures c.parameter.Some?
    ensures |c.parameter.value| > |PARAMETER_PREFIX|
    ensures c.parameter.value[..|PARAMETER_PREFIX|] == PARAMETER_PREFIX
    ensures Decimal.Canonical(c.parameter.value[|PARAMETER_PREFIX|..])
    ensures Decimal.ParseInt(c.parameter.value[|PARAMETER_PREFIX|..]) == Some(100 - x)
  {
    var text := PARAMETER_PREFIX + Decimal.IntToString(100 - x);
    assert text[|PARAMETER_PREFIX|..] == Decimal.IntToString(100 - x);
    Decimal.ParseIntToString(100 - x);
    Command(SET_POSITION, Some(text))
  }

  /** The vendor position a `set_position` command asks for, or None when the
      parameter is not of the "0,ff,<n>" shape. */
  function RequestedVendorPosition(c: Command): Option<int>
  {
    if c.name == SET_POSITION && c.parameter.Some?
       && |c.parameter.value| >= |PARAMETER_PREFIX|
       && c.parameter.value[..|PARAMETER_PREFIX|] == PARAMETER_PREFIX
    then Decimal.ParseInt(c.parameter.value[|PARAMETER_PREFIX|..])
    else None
  }

  /** `async_open_cover`: raise the opening flag, publish it, then ask the
      vendor for position 0 (fully open in the vendor's polarity). */
  function OpenCover(c: Curtain): (r: Step)
    ensures r.state.device == c.device
    ensures r.state.opening == Some(true) && r.state.closing == c.closing
    ensures |r.effects| == 2
    ensures r.effects[0] == WriteState(Some(true), c.closing)
    ensures r.effects[1] == Send(c.UniqueId(), Command(SET_POSITION, Some("0,ff,0")))
  {
    var s := c.(opening := Some(true));
    Decimal.EndpointTexts();
    assert PARAMETER_PREFIX + Decimal.IntToString(0) == "0,ff,0";
    Step(s, [WriteState(s.opening, s.closing), Send(c.UniqueId(), SetPositionCommand(100))])
  }

  /** `async_close_cover`: raise the closing flag, publish it, then ask the
      vendor for position 100 (fully closed in the vendor's polarity). */
  function CloseCover(c: Curtain): (r: Step)
    ensures r.state.device == c.device
    ensures r.state.closing == Some(true) && r.state.opening == c.opening
    ensures |r.effects| == 2
    ensures r.effects[0] == WriteState(c.opening, Some(true))
    ensures r.effects[1] == Send(c.UniqueId(), Command(SET_POSITION, Some("0,ff,100")))
  {
    var s := c.(closing := Some(true));
    Decimal.EndpointTexts();
    assert PARAMETER_PREFIX + Decimal.IntToString(100) == "0,ff,100";
    Step(s, [WriteState(s.opening, s.closing), Send(c.UniqueId(), SetPositionCommand(0))])
  }

  /** `async_set_cover_position(p)` as written: it hands `100 - p` to
      `_set_position`, which complements it again, so the vendor is asked
      for p itself. No flag changes and no state is written. */
  function SetCoverPositionAsWritten(c: Curtain, p: int): (r: Step)
    ensures r.state == c
    ensures r.effects == [Send(c.UniqueId(), Command(SET_POSITION, Some(PARAMETER_PREFIX + Decimal.IntToString(p))))]
  {
    Step(c, [Send(c.UniqueId(), SetPositionCommand(100 - p))])
  }

  /** `async_set_cover_position(p)` with the single complement that open and
      close use: the vendor is asked for 100 - p. No flag changes and no
      state is written. */
  function SetCoverPosition(c: Curtain, p: int): (r: Step)
    ensures r.state == c
    ensures |r.effects| == 1 && r.effects[0].Send? && r.effects[0].deviceId == c.UniqueId()
    ensures RequestedVendorPosition(r.effects[0].command) == Some(100 - p)
  {
    Step(c, [Send(c.UniqueId(), SetPositionCommand(p))])
  }

  /** As written, asking for position 100 (fully open) sends the very command
      that closing sends, and a vendor that reaches the requested raw value
      then reports position 0, not 100. */
  lemma SetCoverPositionAsWrittenInverts(c: Curtain)
    ensures SetCoverPositionAsWritten(c, 100).effects[0] == CloseCover(c).effects[1]
    ensures var v := RequestedVendorPosition(SetCoverPositionAsWritten(c, 100).effects[0].command);
      v == Some(100) && Position.CurrentPosition(Status(v, None)) == Some(0)
  {
  }

  /** With the single complement, a vendor that reaches the requested raw
      value reports back the requested position, for every step of five in
      0..100, and a position within 2 of the request for any p in 0..100. */
  lemma SetCoverPositionRoundTrip(c: Curtain, p: int)
    requires 0 <= p <= 100
    ensures var v := RequestedVendorPosition(SetCoverPosition(c, p).effects[0].command);
      && v == Some(100 - p)
      && var reported := Position.CurrentPosition(Status(v, None)).value;
      && -2 <= reported - p <= 2
      && (p % 5 == 0 ==> reported == p)
  {
  }

  /** `_handle_coordinator_update`: take the device stored under the entity's
      unique id, AND each flag with the device's `moving`, publish the state. */
  function HandleUpdate(c: Curtain, data: map<string, Device>): (r: Step)
    requires c.UniqueId() in data
    requires data[c.UniqueId()].status.moving.Some?
    ensures r.state.device == data[c.UniqueId()]
    ensures var moving := data[c.UniqueId()].status.moving.value;
      && (Truthy(r.state.opening) <==> Truthy(c.opening) && moving)
      && (Truthy(r.state.closing) <==> Truthy(c.closing) && moving)
      && (moving ==> r.state.opening == c.opening && r.state.closing == c.closing)
      && r.state.opening == PyAnd(c.opening, moving)
      && r.state.closing == PyAnd(c.closing, moving)
    ensures r.effects == [WriteState(r.state.opening, r.state.closing)]
  {
    var device := data[c.UniqueId()];
    var moving := device.status.moving.value;
    var s := Curtain(device, PyAnd(c.opening, moving), PyAnd(c.closing, moving));
    Step(s, [WriteState(s.opening, s.closing)])
  }

  /** An update never raises a flag, and a stopped device clears both. */
  lemma UpdateNeverRaisesFlags(c: Curtain, data: map<string, Device>)
    requires c.UniqueId() in data
    requires data[c.UniqueId()].status.moving.Some?
    ensures var s := HandleUpdate(c, data).state;
      && (Truthy(s.opening) ==> Truthy(c.opening))
      && (Truthy(s.closing) ==> Truthy(c.closing))
      && (data[c.UniqueId()].status.moving == Some(false) ==> !Truthy(s.opening) && !Truthy(s.closing))
  {
  }

  /** Opening and then receiving a snapshot in which the device is not moving
      leaves the entity not opening; a snapshot in which it still moves keeps
      it opening. */
  lemma OpenThenUpdate(c: Curtain, data: map<string, Device>)
    requires c.UniqueId() in data
    requires data[c.UniqueId()].status.moving.Some?
    ensures var s := HandleUpdate(OpenCover(c).state, data).state;
      Truthy(s.opening) <==> data[c.UniqueId()].status.moving.value
  {
  }

  /** When the snapshot is keyed by device id, an update keeps the entity's
      unique id. */
  lemma UpdateKeepsUniqueId(c: Curtain, data: map<string, Device>)
    requires c.UniqueId() in data
    requires data[c.UniqueId()].status.moving.Some?
    requires forall k :: k in data ==> data[k].info.id == k
    ensures HandleUpdate(c, data).state.UniqueId() == c.UniqueId()
  {
  }
}

=== FILE: decimal.dfy ===
/**
 * Decimal text for integers, as Python's f-string formatting writes it
 * (`f"{n}"`): digits without leading zeros, a leading '-' for negatives.
 * The parser is the inverse used to state what a command parameter carries.
 */
module Decimal {
  import opened Wrappers

  predicate IsDigit(c: char)
  {
    '0' <= c <= '9'
  }

  function DigitChar(d: int): (c: char)
    requires 0 <= d < 10
    ensures IsDigit(c)
    ensures c as int - '0' as int == d
  {
    (d + '0' as int) as char
  }

  function DigitValue(c: char): (d: nat)
    requires IsDigit(c)
    ensures d < 10
    ensures DigitChar(d) == c
  {
    c as int - '0' as int
  }

  /** The decimal text of a natural number. */
  function NatToString(n: nat): (s: string)
    ensures |s| >= 1
    ensures forall i :: 0 <= i < |s| ==> IsDigit(s[i])
    ensures |s| > 1 ==> s[0] != '0'
    ensures s[0] == '0' <==> n == 0
    decreases n
  {
    if n < 10 then [DigitChar(n)]
    else NatToString(n / 10) + [DigitChar(n % 10)]
  }

  /** A run of digits as Python writes a natural number: at least one digit,
      and no leading zero unless the run is "0" itself. */
  predicate CanonicalDigits(s: string)
  {
    && |s| > 0
    && (forall i :: 0 <= i < |s| ==> IsDigit(s[i]))
    && (|s| > 1 ==> s[0] != '0')
  }

  /** Text as Python writes an integer: canonical digits, optionally after a
      '-', and never "-0". */
  predicate Canonical(s: string)
  {
    if |s| > 0 && s[0] == '-' then CanonicalDigits(s[1..]) && s[1] != '0'
    else CanonicalDigits(s)
  }

  /** The decimal text of an integer, signed when negative. */
  function IntToString(i: int): (s: string)
    ensures i < 0 <==> (|s| > 0 && s[0] == '-')
    ensures Canonical(s)
  {
    if i < 0 then "-" + NatToString(-i) else NatToString(i)
  }

  /** The value of a run of digits; the empty run reads as 0. */
  function ParseNat(s: string): nat
    requires forall i :: 0 <= i < |s| ==> IsDigit(s[i])
  {
    if |s| == 0 then 0
    else ParseNat(s[..|s| - 1]) * 10 + DigitValue(s[|s| - 1])
  }

  /** The value of a decimal integer text, or None when it is not one. */
  function ParseInt(s: string): Option<int>
  {
    if |s| > 0 && s[0] == '-' then
      (if |s| > 1 && forall i :: 1 <= i < |s| ==> IsDigit(s[i]) then Some(0 - ParseNat(s[1..]) as int) else None)
    else if |s| > 0 && forall i :: 0 <= i < |s| ==> IsDigit(s[i]) then Some(ParseNat(s))
    else None
  }

  lemma {:induction false} ParseNatToString(n: nat)
    ensures ParseNat(NatToString(n)) == n
    decreases n
  {
    if n >= 10 {
      var s := NatToString(n);
      var prefix := NatToString(n / 10);
      assert s[..|s| - 1] == prefix;
      ParseNatToString(n / 10);
    }
  }

  /** Reading back the text of any integer gives that integer. */
  lemma ParseIntToString(i: int)
    ensures ParseInt(IntToString(i)) == Some(i)
  {
    var s := IntToString(i);
    if i < 0 {
      assert s[1..] == NatToString(-i);
      ParseNatToString(-i);
    } else {
      ParseNatToString(i);
    }
  }

  /** A nonempty digit run without a leading zero reads as at least its
      first digit. */
  lemma {:induction false} ParseNatAtLeastFirstDigit(s: string)
    requires CanonicalDigits(s)
    ensures ParseNat(s) >= DigitValue(s[0])
    decreases |s|
  {
    if |s| > 1 {
      ParseNatAtLeastFirstDigit(s[..|s| - 1]);
    }
  }

  /** A canonical digit run is the text of its own value. */
  lemma {:induction false} NatToStringParseNat(s: string)
    requires CanonicalDigits(s)
    ensures NatToString(ParseNat(s)) == s
    decreases |s|
  {
    if |s| > 1 {
      var p := s[..|s| - 1];
      ParseNatAtLeastFirstDigit(p);
      NatToStringParseNat(p);
      assert s == p + [s[|s| - 1]];
    }
  }

  /** A canonical text is determined by its value: it is exactly the text
      `IntToString` writes for the integer it parses to. */
  lemma CanonicalIsIntToString(s: string, i: int)
    requires Canonical(s) && ParseInt(s) == Some(i)
    ensures s == IntToString(i)
  {
    if s[0] == '-' {
      ParseNatAtLeastFirstDigit(s[1..]);
      NatToStringParseNat(s[1..]);
      assert s == "-" + s[1..];
    } else {
      NatToStringParseNat(s);
    }
  }

  /** The texts of the two ends of the 0..100 position range. */
  lemma EndpointTexts()
    ensures IntToString(0) == "0"
    ensures IntToString(100) == "100"
  {
  }

  /** Different integers have different texts. */
  lemma IntToStringInjective(a: int, b: int)
    ensures IntToString(a) == IntToString(b) ==> a == b
  {
    ParseIntToString(a);
    ParseIntToString(b);
  }
}

=== FILE: devices.dfy ===
/**
 * The records exchanged with the SwitchBot cloud gateway: device listings,
 * per-device status and outbound commands, and the three ways a gateway call
 * can end.
 */
module Devices {
  import opened Wrappers

  /** How a gateway call failed. The vendor client raises `RuntimeError` when
      the token is rejected and `IOError` on transport trouble; anything else
      is an exception the integration does not name. */
  datatype GatewayError =
    | AuthError
    | IoError(message: string)
    | OtherError

  /** The outcome of one gateway call. */
  datatype Outcome<+T> = Ok(value: T) | Err(error: GatewayError)

  /** The identity fields of one listed device. */
  datatype DeviceInfo = DeviceInfo(
    id: string,
    name: string,
    deviceType: string,
    cloudEnabled: bool,
    calibrated: bool,
    grouped: bool,
    master: bool
  )

  /** The vendor's status dictionary, reduced to the two keys the curtain
      adapter reads; None stands for a missing key. */
  datatype Status = Status(slidePosition: Option<int>, moving: Option<bool>)

  /** A device together with the status fetched for it. */
  datatype Device = Device(info: DeviceInfo, status: Status)

  /** An outbound device command: a command name and an optional parameter. */
  datatype Command = Command(name: string, parameter: Option<string>)
}

=== FILE: lifecycle.dfy ===
/**
 * The integration's bookkeeping in the host's shared data dictionary
 * (`async_setup_entry` and `async_unload_entry` in __init__.py). The
 * dictionary under the integration's domain holds one shared coordinator
 * under the "coordinator" key and, per loaded config entry, the coordinator
 * that entry uses.
 */
module Lifecycle {
  import opened Wrappers
  import Refresh
  import Devices

  const DOMAIN := "switchbot_cloud"
  const UPDATE_INTERVAL_SECONDS := 30

  /** A coordinator, identified by what it was built with: its name, the API
      token its update method polls with, and its interval. */
  datatype Coordinator = Coordinator(name: string, token: string, intervalSeconds: nat)

  /** `hass.data[DOMAIN]`: the shared coordinator (the "coordinator" key) and
      the per-entry records keyed by entry id. */
  datatype DomainData = DomainData(coordinator: Option<Coordinator>, entries: map<string, Coordinator>)

  /** `hass.data`, restricted to values of this integration's shape. */
  type HassData = map<string, DomainData>

  function NewCoordinator(token: string): Coordinator
  {
    Coordinator(DOMAIN, token, UPDATE_INTERVAL_SECONDS)
  }

  /** `hass.data.setdefault(DOMAIN, {})`. */
  function DomainOf(data: HassData): DomainData
  {
    if DOMAIN in data then data[DOMAIN] else DomainData(None, map[])
  }

  /** The data after set-up, the coordinator the entry uses, and whether the
      entry finished loading. */
  datatype Setup = Setup(data: HassData, coordinator: Coordinator, loaded: bool)

  /** `async_setup_entry`: store a new coordinator only if none is stored,
      run the first refresh with whichever coordinator is stored, and record
      the entry only when that refresh succeeded. */
  function SetupEntry(data: HassData, entryId: string, token: string, firstRefresh: Refresh.CycleResult): (r: Setup)
    ensures r.data.Keys == data.Keys + {DOMAIN}
    ensures forall k :: k in data && k != DOMAIN ==> r.data[k] == data[k]
    ensures DOMAIN in data && data[DOMAIN].coordinator.Some? ==> r.coordinator == data[DOMAIN].coordinator.value
    ensures (DOMAIN !in data || data[DOMAIN].coordinator.None?) ==>
      r.coordinator.token == token && r.coordinator.intervalSeconds == 30
    ensures r.data[DOMAIN].coordinator == Some(r.coordinator)
    ensures r.loaded <==> firstRefresh.Fetched?
    ensures entryId in r.data[DOMAIN].entries <==> r.loaded || entryId in DomainOf(data).entries
    ensures r.loaded ==> r.data[DOMAIN].entries[entryId] == r.coordinator
    ensures forall e :: e in DomainOf(data).entries && e != entryId ==>
      e in r.data[DOMAIN].entries && r.data[DOMAIN].entries[e] == DomainOf(data).entries[e]
    ensures r.data[DOMAIN].entries.Keys == DomainOf(data).entries.Keys + (if r.loaded then {entryId} else {})
    ensures !r.loaded ==> r.data[DOMAIN].entries == DomainOf(data).entries
  {
    var domain := DomainOf(data);
    var coordinator := domain.coordinator.GetOr(NewCoordinator(token));
    var domain' := domain.(coordinator := Some(coordinator));
    if firstRefresh.Fetched? then
      Setup(data[DOMAIN := domain'.(entries := domain'.entries[entryId := coordinator])], coordinator, true)
    else
      Setup(data[DOMAIN := domain'], coordinator, false)
  }

  /** The data after unloading, and the value `async_unload_entry` returns. */
  datatype Unload = Unload(data: HassData, ok: bool)

  /** `async_unload_entry`: when the platforms unloaded, drop the entry's
      record, and drop the whole domain when the host has no config entries
      of the domain left. `configuredEntries` is that count from the host.
      The entry's record must be present, as `pop` without a default
      demands. */
  function UnloadEntry(data: HassData, entryId: string, platformsUnloaded: bool, configuredEntries: nat): (r: Unload)
    requires platformsUnloaded ==> DOMAIN in data && entryId in data[DOMAIN].entries
    ensures r.ok == platformsUnloaded
    ensures !platformsUnloaded ==> r.data == data
    ensures forall k :: k in data && k != DOMAIN ==> k in r.data && r.data[k] == data[k]
    ensures r.data.Keys <= data.Keys
    ensures platformsUnloaded ==> (DOMAIN in r.data <==> configuredEntries > 0)
    ensures DOMAIN in r.data && platformsUnloaded ==>
      && r.data[DOMAIN].coordinator == data[DOMAIN].coordinator
      && r.data[DOMAIN].entries.Keys == data[DOMAIN].entries.Keys - {entryId}
      && forall e :: e in r.data[DOMAIN].entries ==> r.data[DOMAIN].entries[e] == data[DOMAIN].entries[e]
  {
    if !platformsUnloaded then Unload(data, false)
    else
      var domain := data[DOMAIN];
      var data' := data[DOMAIN := domain.(entries := domain.entries - {entryId})];
      if configuredEntries == 0 then Unload(data' - {DOMAIN}, true)
      else Unload(data', true)
  }

  /** Setting up the only entry and then unloading it, with no config entries
      left, restores the data as it was before. */
  lemma SetupThenUnloadRestores(data: HassData, entryId: string, token: string, snapshot: map<string, Devices.Device>)
    requires DOMAIN !in data
    ensures var s := SetupEntry(data, entryId, token, Refresh.Fetched(snapshot));
      s.loaded && UnloadEntry(s.data, entryId, true, 0).data == data
  {
    var s := SetupEntry(data, entryId, token, Refresh.Fetched(snapshot));
    var u := UnloadEntry(s.data, entryId, true, 0).data;
    assert u.Keys == data.Keys;
  }

  /** A second entry set up while a coordinator is stored reuses it, so it
      polls with the first entry's token, whatever its own token is. */
  lemma SecondEntryReusesCoordinator(data: HassData, first: string, second: string,
                                     token1: string, token2: string,
                                     refresh1: Refresh.CycleResult, refresh2: Refresh.CycleResult)
    requires DOMAIN !in data
    ensures var s1 := SetupEntry(data, first, token1, refresh1);
      var s2 := SetupEntry(s1.data, second, token2, refresh2);
      && s2.coordinator == s1.coordinator
      && s2.coordinator.token == token1
  {
  }

  /** A failed first refresh leaves the new coordinator stored but records
      no entry, so a retry of the set-up reuses that coordinator. */
  lemma FailedSetupKeepsCoordinator(data: HassData, entryId: string, token: string, e: Refresh.CycleResult)
    requires DOMAIN !in data
    requires !e.Fetched?
    ensures var s := SetupEntry(data, entryId, token, e);
      && !s.loaded
      && s.data[DOMAIN] == DomainData(Some(NewCoordinator(token)), map[])
  {
  }
}

=== FILE: position.dfy ===
/**
 * Derived curtain position (cover.py, `current_cover_position` and
 * `is_closed`). The vendor reports `slide_position` with 0 meaning fully
 * open; the host platform wants 100 meaning fully open, in steps of five.
 */
module Position {
  import opened Wrappers
  import opened Devices

  /** Python's `round(n / d)` for d > 0, computed exactly: the nearest
      integer to the rational n/d, ties going to the even neighbour. */
  function RoundHalfEven(n: int, d: int): int
    requires d > 0
  {
    var q := n / d;   // floor, since d > 0
    var rem := n % d; // 0 <= rem < d
    if 2 * rem < d then q
    else if 2 * rem > d then q + 1
    else if q % 2 == 0 then q else q + 1
  }

  /** `current_cover_position`: None when the status has no slide position,
      otherwise 100 minus the multiple of five nearest the raw value. */
  function CurrentPosition(status: Status): (r: Option<int>)
    ensures r.None? <==> status.slidePosition.None?
    ensures r.Some? ==> (100 - r.value) % 5 == 0
    ensures r.Some? ==> -2 <= status.slidePosition.value - (100 - r.value) <= 2
  {
    match status.slidePosition
    case None => None
    case Some(raw) => Some(100 - 5 * RoundHalfEven(raw, 5))
  }

  /** `is_closed`: unknown when the position is unknown, otherwise closed
      exactly when the position is at most 20. */
  function IsClosed(status: Status): (r: Option<bool>)
    ensures r.None? <==> status.slidePosition.None?
    ensures r.Some? ==> (r.value <==> CurrentPosition(status).value <= 20)
  {
    var position := CurrentPosition(status);
    if position.None? then None else Some(position.value <= 20)
  }

  /** Dividing an integer by five never lands on a half, so the tie rule of
      Python's rounding never applies: the result is floor((raw + 2) / 5). */
  lemma RoundFifthIsShiftedFloor(raw: int)
    ensures RoundHalfEven(raw, 5) == (raw + 2) / 5
  {
  }

  /** The position is pinned down by two facts: 100 minus it is a multiple of
      five, and that multiple is within 2 of the raw value. */
  lemma PositionCharacterized(status: Status, p: int)
    ensures CurrentPosition(status) == Some(p) <==>
      && status.slidePosition.Some?
      && (100 - p) % 5 == 0
      && -2 <= status.slidePosition.value - (100 - p) <= 2
  {
  }

  /** For raw values in the vendor's range 0..100 the position is a multiple
      of five in 0..100 and within 2 of `100 - raw`. */
  lemma PositionInRange(raw: int)
    requires 0 <= raw <= 100
    ensures var p := CurrentPosition(Status(Some(raw), None)).value;
      && 0 <= p <= 100
      && p % 5 == 0
      && -2 <= (100 - raw) - p <= 2
  {
  }

  /** Vendor 0 (fully open) is host 100, vendor 100 (fully closed) is host 0,
      and intermediate values land on the nearest step of five. */
  lemma PositionExamples()
    ensures CurrentPosition(Status(Some(0), None)) == Some(100)
    ensures CurrentPosition(Status(Some(100), None)) == Some(0)
    ensures CurrentPosition(Status(Some(42), None)) == Some(60)
    ensures CurrentPosition(Status(Some(47), None)) == Some(55)
    ensures CurrentPosition(Status(Some(48), None)) == Some(50)
  {
  }

  /** A larger raw value never yields a larger position. */
  lemma PositionNonIncreasing(a: int, b: int)
    requires a <= b
    ensures CurrentPosition(Status(Some(b), None)).value <= CurrentPosition(Status(Some(a), None)).value
  {
  }

  /** The curtain counts as closed exactly when the raw value is 78 or more:
      78 rounds to 80 (position 20), 77 rounds to 75 (position 25). */
  lemma ClosedIffRawAtLeast78(status: Status)
    requires status.slidePosition.Some?
    ensures IsClosed(status) == Some(status.slidePosition.value >= 78)
  {
  }
}

=== FILE: refresh.dfy ===
/**
 * One refresh cycle of the coordinator (`async_update_data` in
 * __init__.py): list the devices, keep the cloud-enabled ones, fetch each
 * one's status in list order, and key the result by device id. Any failure
 * ends the cycle with no map, classified by the exception it came from.
 *
 * The gateway is a script: `listing` is what the device listing returns, and
 * `replies[i]` is what the i-th status call of this cycle returns.
 */
module Refresh {
  import opened Wrappers
  import opened Devices

  const ERROR_PREFIX := "Error communicating with the SwitchBot API: "

  /** What the update method hands back to the coordinator. */
  datatype CycleResult =
    | Fetched(snapshot: map<string, Device>) // the id-keyed map
    | AuthFailed                             // ConfigEntryAuthFailed
    | UpdateFailed(message: string)          // UpdateFailed
    | Uncaught                               // any other exception, not caught here

  /** A cycle's result together with the devices whose status was requested,
      in the order the requests were made. */
  datatype Cycle = Cycle(result: CycleResult, statusCalls: seq<DeviceInfo>)

  /** How one gateway failure surfaces from the update method. */
  function Classify(e: GatewayError): (r: CycleResult)
    ensures r.AuthFailed? <==> e.AuthError?
    ensures e.IoError? <==> r.UpdateFailed?
    ensures e.IoError? ==> r.message == ERROR_PREFIX + e.message
    ensures !r.Fetched?
  {
    match e
    case AuthError => AuthFailed
    case IoError(m) => UpdateFailed(ERROR_PREFIX + m)
    case OtherError => Uncaught
  }

  /** The devices of a listing that are cloud-enabled, in listing order. */
  function CloudEnabled(devices: seq<DeviceInfo>): (r: seq<DeviceInfo>)
    ensures |r| <= |devices|
    ensures forall d :: d in r <==> d in devices && d.cloudEnabled
  {
    if |devices| == 0 then []
    else
      var rest := CloudEnabled(devices[1..]);
      assert forall d :: d in devices <==> d == devices[0] || d in devices[1..];
      if devices[0].cloudEnabled then [devices[0]] + rest else rest
  }

  /** The filter keeps every cloud-enabled device as often as the listing
      holds it, and no other device. */
  lemma {:induction false} CloudEnabledCounts(devices: seq<DeviceInfo>)
    ensures forall d :: multiset(CloudEnabled(devices))[d] == if d.cloudEnabled then multiset(devices)[d] else 0
  {
    if |devices| > 0 {
      CloudEnabledCounts(devices[1..]);
      assert devices == [devices[0]] + devices[1..];
    }
  }

  /** The filter keeps listing order: filtering a concatenation is the
      concatenation of the filtered parts. */
  lemma {:induction false} CloudEnabledAppend(a: seq<DeviceInfo>, b: seq<DeviceInfo>)
    ensures CloudEnabled(a + b) == CloudEnabled(a) + CloudEnabled(b)
    decreases |a|
  {
    if |a| == 0 {
      assert a + b == b;
    } else {
      assert (a + b)[0] == a[0];
      assert (a + b)[1..] == a[1..] + b;
      CloudEnabledAppend(a[1..], b);
    }
  }

  /** All of the first n replies succeeded. */
  predicate AllOk(replies: seq<Outcome<Status>>, n: nat)
    requires n <= |replies|
  {
    forall j :: 0 <= j < n ==> replies[j].Ok?
  }

  /** The outcome of the status loop, and how many status calls it made. */
  datatype Fetch = Fetch(outcome: Outcome<seq<Device>>, calls: nat)

  /** The status loop: one status call per device in order, stopping at the
      first failure, which becomes the loop's failure. */
  function FetchStatuses(devices: seq<DeviceInfo>, replies: seq<Outcome<Status>>): (r: Fetch)
    requires |devices| <= |replies|
    ensures r.calls <= |devices|
    ensures r.outcome.Ok? <==> AllOk(replies, |devices|)
    ensures r.outcome.Ok? ==>
      && r.calls == |devices|
      && |r.outcome.value| == |devices|
      && forall i :: 0 <= i < |devices| ==> r.outcome.value[i] == Device(devices[i], replies[i].value)
    ensures r.outcome.Err? ==>
      && 1 <= r.calls
      && AllOk(replies, r.calls - 1)
      && replies[r.calls - 1] == Err(r.outcome.error)
  {
    if |devices| == 0 then Fetch(Ok([]), 0)
    else
      match replies[0]
      case Err(e) => Fetch(Err(e), 1)
      case Ok(status) =>
        var rest := FetchStatuses(devices[1..], replies[1..]);
        match rest.outcome
        case Err(e) => Fetch(Err(e), rest.calls + 1)
        case Ok(tail) => Fetch(Ok([Device(devices[0], status)] + tail), rest.calls + 1)
  }

  /** The ids of a sequence of devices. */
  function Ids(devices: seq<Device>): set<string>
  {
    set d | d in devices :: d.info.id
  }

  /** The dictionary comprehension `{device.id: device for device in devices}`:
      insert in order, so a later device replaces an earlier one with the
      same id. */
  function Keyed(devices: seq<Device>): (m: map<string, Device>)
    ensures m.Keys == Ids(devices)
    ensures forall k :: k in m ==> m[k].info.id == k && m[k] in devices
  {
    if |devices| == 0 then map[]
    else
      var init := devices[..|devices| - 1];
      var last := devices[|devices| - 1];
      assert forall d :: d in devices <==> d == last || d in init;
      Keyed(init)[last.info.id := last]
  }

  /** The last occurrence of an id wins: a device that no later device shares
      its id with is the one stored under that id. */
  lemma {:induction false} KeyedLaterWins(devices: seq<Device>, i: nat)
    requires i < |devices|
    requires forall j :: i < j < |devices| ==> devices[j].info.id != devices[i].info.id
    ensures devices[i].info.id in Keyed(devices)
    ensures Keyed(devices)[devices[i].info.id] == devices[i]
  {
    if i < |devices| - 1 {
      var init := devices[..|devices| - 1];
      KeyedLaterWins(init, i);
    }
  }

  /** The body of `async_update_data`. The script must hold a reply for every
      status call the cycle can make. */
  function UpdateData(listing: Outcome<seq<DeviceInfo>>, replies: seq<Outcome<Status>>): (r: Cycle)
    requires listing.Ok? ==> |CloudEnabled(listing.value)| <= |replies|
    ensures listing.Err? ==> r == Cycle(Classify(listing.error), [])
    ensures r.result.Fetched? <==> listing.Ok? && AllOk(replies, |CloudEnabled(listing.value)|)
    ensures forall d :: d in r.statusCalls ==> listing.Ok? && d in listing.value && d.cloudEnabled
  {
    match listing
    case Err(e) => Cycle(Classify(e), [])
    case Ok(all) =>
      var devices := CloudEnabled(all);
      var fetch := FetchStatuses(devices, replies);
      var calls := devices[..fetch.calls];
      assert forall d :: d in calls ==> d in devices;
      match fetch.outcome
      case Err(e) => Cycle(Classify(e), calls)
      case Ok(fetched) => Cycle(Fetched(Keyed(fetched)), calls)
  }

  /** The index of the first failing reply among the first n, if any. */
  function FirstFailure(replies: seq<Outcome<Status>>, n: nat): (r: Option<nat>)
    requires n <= |replies|
    ensures r.None? <==> AllOk(replies, n)
    ensures r.Some? ==> r.value < n && replies[r.value].Err? && AllOk(replies, r.value)
  {
    if n == 0 then None
    else
      var earlier := FirstFailure(replies, n - 1);
      if earlier.Some? then earlier
      else if replies[n - 1].Err? then Some(n - 1)
      else None
  }

  /** A successful cycle's map holds exactly the ids of the cloud-enabled
      devices of the listing, each under its own id. */
  lemma SnapshotKeysAreCloudDevices(listing: Outcome<seq<DeviceInfo>>, replies: seq<Outcome<Status>>)
    requires listing.Ok? ==> |CloudEnabled(listing.value)| <= |replies|
    ensures var r := UpdateData(listing, replies).result;
      r.Fetched? ==>
        && r.snapshot.Keys == (set d | d in listing.value && d.cloudEnabled :: d.id)
        && forall k :: k in r.snapshot ==>
             && r.snapshot[k].info.id == k
             && r.snapshot[k].info in listing.value
             && r.snapshot[k].info.cloudEnabled
  {
  }

  /** Every device in a successful cycle's map carries the status returned
      by this cycle's call for it: the last status call made for that id. */
  lemma SnapshotStatusesFromThisCycle(listing: Outcome<seq<DeviceInfo>>, replies: seq<Outcome<Status>>)
    requires listing.Ok? ==> |CloudEnabled(listing.value)| <= |replies|
    ensures var c := UpdateData(listing, replies);
      c.result.Fetched? ==>
        forall k :: k in c.result.snapshot ==>
          exists i :: (0 <= i < |c.statusCalls| && c.statusCalls[i].id == k
            && c.result.snapshot[k] == Device(c.statusCalls[i], replies[i].value)
            && forall j :: i < j < |c.statusCalls| ==> c.statusCalls[j].id != k)
  {
    var c := UpdateData(listing, replies);
    if c.result.Fetched? {
      var devices := CloudEnabled(listing.value);
      var fetched := FetchStatuses(devices, replies).outcome.value;
      assert c.statusCalls == devices;
      forall k | k in c.result.snapshot
        ensures exists i :: (0 <= i < |devices| && devices[i].id == k
            && c.result.snapshot[k] == Device(devices[i], replies[i].value)
            && forall j :: i < j < |devices| ==> devices[j].id != k)
      {
        KeyedStatus(devices, replies, fetched, k);
        var i := LastWithId(fetched, k);
        assert 0 <= i < |devices| && devices[i].id == k;
      }
    }
  }

  /** One key of the map built from devices paired with their replies. */
  lemma KeyedStatus(devices: seq<DeviceInfo>, replies: seq<Outcome<Status>>, fetched: seq<Device>, k: string)
    requires |fetched| == |devices| <= |replies|
    requires AllOk(replies, |devices|)
    requires forall i :: 0 <= i < |devices| ==> fetched[i] == Device(devices[i], replies[i].value)
    requires k in Keyed(fetched)
    ensures var i := LastWithId(fetched, k);
      && devices[i].id == k
      && Keyed(fetched)[k] == Device(devices[i], replies[i].value)
      && forall j :: i < j < |devices| ==> devices[j].id != k
  {
    var i := LastWithId(fetched, k);
    KeyedLaterWins(fetched, i);
    assert forall j :: i < j < |devices| ==> fetched[j].info == devices[j];
  }

  /** The index of the last device carrying id k. */
  function LastWithId(devices: seq<Device>, k: string): (i: nat)
    requires k in Ids(devices)
    ensures i < |devices| && devices[i].info.id == k
    ensures forall j :: i < j < |devices| ==> devices[j].info.id != k
  {
    var last := devices[|devices| - 1];
    if last.info.id == k then |devices| - 1
    else
      assert k in Ids(devices[..|devices| - 1]) by {
        var d :| d in devices && d.info.id == k;
        assert d != last;
        assert forall e :: e in devices <==> e == last || e in devices[..|devices| - 1];
      }
      LastWithId(devices[..|devices| - 1], k)
  }

  /** The status loop stops at the first failing reply and ends with its
      error. */
  lemma FetchStopsAtFirstFailure(devices: seq<DeviceInfo>, replies: seq<Outcome<Status>>)
    requires |devices| <= |replies|
    ensures var f := FirstFailure(replies, |devices|);
      var r := FetchStatuses(devices, replies);
      && (f.None? <==> r.outcome.Ok?)
      && (f.Some? ==> r.calls == f.value + 1 && r.outcome == Err(replies[f.value].error))
  {
  }

  /** Status calls are made one per cloud-enabled device, in listing order,
      up to and including the first failing one; a successful cycle made a
      call for every one of them. */
  lemma StatusCallsInListOrder(listing: Outcome<seq<DeviceInfo>>, replies: seq<Outcome<Status>>)
    requires listing.Ok?
    requires |CloudEnabled(listing.value)| <= |replies|
    ensures var c := UpdateData(listing, replies);
      var devices := CloudEnabled(listing.value);
      && c.statusCalls == devices[..|c.statusCalls|]
      && (c.result.Fetched? ==> c.statusCalls == devices)
      && (!c.result.Fetched? ==> FirstFailure(replies, |devices|) == Some(|c.statusCalls| - 1))
  {
    FetchStopsAtFirstFailure(CloudEnabled(listing.value), replies);
  }

  /** Failures are all-or-nothing and classified by the first failing call:
      the listing's own failure, or else the first failing status reply,
      whatever the replies after it would have been. */
  lemma FailureClassifiedByFirstError(listing: Outcome<seq<DeviceInfo>>, replies: seq<Outcome<Status>>)
    requires listing.Ok? ==> |CloudEnabled(listing.value)| <= |replies|
    ensures var r := UpdateData(listing, replies).result;
      listing.Ok? ==>
        var f := FirstFailure(replies, |CloudEnabled(listing.value)|);
        && (f.None? ==> r.Fetched?)
        && (f.Some? ==> r == Classify(replies[f.value].error))
  {
    if listing.Ok? {
      FetchStopsAtFirstFailure(CloudEnabled(listing.value), replies);
    }
  }

  /** A cycle with any failing status reply publishes nothing, whatever the
      other replies say. */
  lemma OneFailureFailsTheCycle(listing: Outcome<seq<DeviceInfo>>, replies: seq<Outcome<Status>>, i: nat)
    requires listing.Ok? && |CloudEnabled(listing.value)| <= |replies|
    requires i < |CloudEnabled(listing.value)| && replies[i].Err?
    ensures !UpdateData(listing, replies).result.Fetched?
  {
  }
}

=== FILE: wrappers.dfy ===
/** Optional values: Python's `None` versus a present value. */
module Wrappers {

  datatype Option<+T> = None | Some(value: T) {

    /** Returns the value held in Some, or `default` when None. */
    function GetOr(default: T): T
    {
      match this
      case Some(v) => v
      case None => default
    }
  }
}
